=== FILE: README.md ===
# UAVWare cooperative scheduler — a Dafny model

This project models `src/UAVWare/scheduler.c`, the time-triggered cooperative
scheduler of the UAVWare flight-control firmware, and proves properties of it.
The scheduler has four parts:

- a fixed-capacity task table `sch_tasks_g`, one `pTask`/`Delay`/`Period`
  record per slot, where a slot is occupied iff `pTask` is not null;
- the tick interrupt handler `sch_tick_handler`, which counts undrained ticks
  in `tick_count_g` and latches `scheduler_overrun_flag` once that backlog
  exceeds `SCH_TICK_COUNT_LIMIT`;
- the dispatcher `sch_dispatch_tasks`, which drains the backlog one tick at a
  time. Each drain pass pre-decrements every occupied slot's `Delay`, runs the
  task when it reaches 0, and reloads `Delay` from `Period`;
- first-fit registration `sch_add_task`, plus `sch_init_hz`, which empties the
  table, and `sch_start`, which zeroes the backlog and clears the flag.

Modules, one per component:

- `UInt32`: `uint32_t` increment and decrement with wrap-around.
- `TaskTable`: slots, clearing, the slot scan, registration. It also holds the
  as-written scan of the finding below.
- `Dispatcher`: one slot's step, one drain pass (a function and a loop that
  mirrors the source's `for`), and `n` passes.
- `Scheduler`: the whole state, plus the tick handler, `sch_init_hz`,
  `sch_start`, and dispatch with no tick arriving while it runs.
- `Firing`: when a registered task runs.
- `Interleaving`: the dispatcher as a sequence of atomic steps, with tick
  interrupts allowed between any two of them.

Modelling choices:

- `scheduler.h` is not part of this model.
  - `SCH_MAX_TASKS` and `SCH_TICK_COUNT_LIMIT`, which it defines, are model
    parameters. The capacity is the length of the table (`Boot` requires it
    to be positive). The limit is the `limit` argument of `Tick`.
  - Two facts about the header are assumed, not read from it: the `Delay`
    and `Period` fields of `sTask_t` are `uint32_t`, and `SCH_NULL_PTR` is
    the all-zero value, so the zero-initialised static table starts with
    every slot empty (`ZeroTable`).
- A task body is opaque. `Handle` is `Null` (for `SCH_NULL_PTR`) or
  `Fn(id)`, and running a task records its slot index in the pass's firing
  list.
- `Delay` and `Period` are `u32` values. `DELAY + 1` and `--Delay` wrap as C
  does. With `DELAY = UINT32_MAX` the stored `Delay` wraps to 0, so the
  `Delay >= 1` invariant (`WellFormed`) needs `DELAY < UINT32_MAX`. The
  firing schedule still holds in that case, because the pre-decrement wraps
  0 back to `UINT32_MAX`, so the first firing still comes on pass `DELAY + 1`
  (`RegisteredTaskSchedule` has no bound on `DELAY`).
- Interrupt masking is modelled as atomicity. The dispatcher reads and
  writes `tick_count_g` only inside `__disable_irq`/`__enable_irq` (lines
  126-128 and 147-150); the tick handler itself runs as one atomic step. A
  drain pass touches only the table, which the interrupt never reads or
  writes. So each masked block and each drain pass is one atomic step of
  `Interleaving.DispatcherStep`, and `TickIrq` can come between any two steps.
- Both failures of `sch_add_task` return the same `EXIT_FAILURE`, so a
  caller cannot tell a full table from a zero period.
- Because of the pre-decrement on line 138 and the `+ 1` on line 230, a task
  registered with DELAY D first runs on drain pass D + 1: A (DELAY 1,
  PERIOD 10) runs on passes 2, 12, … and B (DELAY 0, PERIOD 5) on passes 1,
  6, 11, … (`Firing.TwoTaskExample`).
- `sch_add_task` with a null `pTask` returns `EXIT_SUCCESS`, but the slot it
  writes stays empty. The model keeps this behaviour: `AddTask` installs
  whatever handle it is given.
- `sch_init_hz` does not touch `tick_count_g` or the overrun flag, and the
  model does not either.

## Model

| member | source | states |
|---|---|---|
| UInt32.Inc | src/UAVWare/scheduler.c:230 | `DELAY + 1` is `(DELAY + 1) mod 2^32`: one more below UINT32_MAX, and 0 exactly when DELAY is UINT32_MAX |
| UInt32.Dec | src/UAVWare/scheduler.c:138 | `--Delay` is `(Delay - 1) mod 2^32`; the result is 0 exactly when Delay was 1 |
| TaskTable.ZeroTable | src/UAVWare/scheduler.c:9 | the static table before any call has the configured capacity and every slot empty |
| TaskTable.Clear | src/UAVWare/scheduler.c:68-70 | after the clearing loop every slot is empty, the capacity is unchanged, and Delay/Period are not written |
| TaskTable.FirstFree | src/UAVWare/scheduler.c:206-212 | the scan stops at the lowest empty slot at or after its start, or at SCH_MAX_TASKS when all are occupied |
| TaskTable.FindFreeSlot | src/UAVWare/scheduler.c:206-212 | the search loop, bound tested first, returns an index with every earlier slot occupied and itself empty or equal to SCH_MAX_TASKS |
| TaskTable.AddTask | src/UAVWare/scheduler.c:202-234 | fails iff the table is full or PERIOD is 0, and then leaves the table unchanged; otherwise claims the lowest empty slot with the handle, Delay = DELAY + 1 and Period = PERIOD, and nothing else changes |
| TaskTable.AddTaskFrame | src/UAVWare/scheduler.c:228-231 | registration never alters an occupied slot; a success writes exactly one previously empty slot, and its Delay is DELAY + 1 when DELAY < UINT32_MAX |
| TaskTable.AddAllFromPrefix | src/UAVWare/scheduler.c:202-234 | on a table whose first k slots are occupied and the rest empty, successive acceptable registrations all succeed and fill slots k, k+1, … in order |
| TaskTable.AddAllFillsInOrder | src/UAVWare/scheduler.c:202-234 | from an empty table, the n-th of up to SCH_MAX_TASKS acceptable registrations succeeds into slot n-1, and later slots stay empty |
| TaskTable.OneTooMany | src/UAVWare/scheduler.c:215-218 | once SCH_MAX_TASKS tasks are registered, one more registration returns EXIT_FAILURE and leaves the table as it was |
| TaskTable.ScanAsWritten | src/UAVWare/scheduler.c:209-211 | the scan as written (slot read before bound test) starts reading at its start index and stops at the last index it read |
| TaskTable.ScanAsWrittenReadsPastEnd | src/UAVWare/scheduler.c:209-218 | the as-written scan stops at the same slot as the corrected one, and on a full table it reads index SCH_MAX_TASKS, one past the array |
| Dispatcher.StepSlot | src/UAVWare/scheduler.c:137-143 | an empty slot is skipped; an occupied slot fires iff its Delay was 1, and then Delay becomes Period; otherwise Delay drops by one (0 wraps to UINT32_MAX); handle and Period never change |
| Dispatcher.FiredBelowSpec | src/UAVWare/scheduler.c:135-145 | the fired list of slots below n holds exactly the slots that fire, in strictly ascending order |
| Dispatcher.PassSteps | src/UAVWare/scheduler.c:135-145 | one pass steps every slot on its own and lists exactly the fired slots in strictly ascending slot order |
| Dispatcher.RunPass | src/UAVWare/scheduler.c:135-145 | the slot-by-slot loop with pre-decrement and reload computes the same table and firing list as the pass function |
| Dispatcher.DrainPassAt | src/UAVWare/scheduler.c:130-154 | the k-th firing list of a drain is the pass run on the table left by the first k passes |
| Dispatcher.DrainKeepsTasks | src/UAVWare/scheduler.c:135-145 | draining never changes a slot's handle or Period |
| Dispatcher.DrainConcat | src/UAVWare/scheduler.c:130-154 | a + b passes equal a passes followed by b passes, with the firing lists concatenated |
| Dispatcher.PassKeepsWellFormed | src/UAVWare/scheduler.c:138-142 | on a table where occupied slots have Delay >= 1 and Period >= 1, a pass decrements each occupied Delay by one or fires it and reloads it to Period, and keeps Delay >= 1 |
| Dispatcher.DrainKeepsWellFormed | src/UAVWare/scheduler.c:130-154 | any number of passes keeps Delay >= 1 and Period >= 1 on occupied slots |
| Dispatcher.AddTaskKeepsWellFormed | src/UAVWare/scheduler.c:221-231 | registration with DELAY < UINT32_MAX keeps Delay >= 1 and Period >= 1 on occupied slots |
| Dispatcher.AddTaskMaxDelayBreaksWellFormed | src/UAVWare/scheduler.c:230 | registering a task with DELAY = UINT32_MAX into a non-full table leaves an occupied slot with Delay 0 |
| Scheduler.Boot | src/UAVWare/scheduler.c:9-13 | initial state: capacity SCH_MAX_TASKS, every slot empty, backlog 0, flag clear |
| Scheduler.Tick | src/UAVWare/scheduler.c:45-63 | the handler adds exactly one to the backlog, sets the flag iff it was set or the new backlog exceeds the limit, and leaves the table alone |
| Scheduler.InitHz | src/UAVWare/scheduler.c:66-73 | every slot is emptied; backlog and flag are untouched |
| Scheduler.Start | src/UAVWare/scheduler.c:76-81 | backlog becomes 0 and the flag false whatever they were; the table is untouched |
| Scheduler.Register | src/UAVWare/scheduler.c:202-234 | registration fails iff the table is full or PERIOD is 0, in which case nothing changes; backlog and flag are never touched |
| Scheduler.Dispatch | src/UAVWare/scheduler.c:122-161 | with no tick during the call: exactly tick_count_g passes, the backlog ends at 0, the flag is returned and kept, and nothing changes when the backlog was 0 |
| Scheduler.DispatchTwice | src/UAVWare/scheduler.c:122-161 | a dispatch, k ticks and another dispatch run exactly the passes of one drain of all the ticks |
| Scheduler.OverrunSticky | src/UAVWare/scheduler.c:56-59 | neither tick, dispatch nor init clears a set flag; only start does |
| Scheduler.DispatchKeepsWellFormed | src/UAVWare/scheduler.c:122-161 | dispatch keeps Delay >= 1 and Period >= 1 on occupied slots |
| Scheduler.DispatchFiresInSlotOrder | src/UAVWare/scheduler.c:135-145 | every firing list of a dispatch names occupied slots in strictly ascending slot order |
| Firing.EmptySlotIdle | src/UAVWare/scheduler.c:137 | an empty slot is never modified and never fires |
| Firing.SlotDelayAfter | src/UAVWare/scheduler.c:138-142 | after k passes an occupied slot's Delay counts down to its first due pass and then cycles P, P-1, …, 1 |
| Firing.SlotFiresOnPass | src/UAVWare/scheduler.c:138-142 | an occupied slot fires on pass k iff k is its first due pass plus a multiple of its Period |
| Firing.DrainSlotAt | src/UAVWare/scheduler.c:135-145 | after n passes each slot is where n steps of its own take it, independent of the other slots |
| Firing.DrainFiresAt | src/UAVWare/scheduler.c:135-145 | slot i is in the k-th firing list iff its own schedule fires on pass k |
| Firing.RegisteredTaskSchedule | src/UAVWare/scheduler.c:228-231 | a task registered with DELAY = D and PERIOD = P fires on pass k, counted from registration, iff k = D+1 + m·P for some m >= 0; this holds for every D, including UINT32_MAX |
| Firing.RegisteredTaskFiresForever | src/UAVWare/scheduler.c:141-142 | such a task fires on pass D+1 + m·P for every m, so it never stops |
| Firing.TwoTaskTable | src/UAVWare/scheduler.c:202-234 | registering A(1,10) and then B(0,5) on an empty 4-slot table succeeds twice, with A in slot 0 (Delay 2) and B in slot 1 (Delay 1) |
| Firing.TwoTaskExample | src/UAVWare/scheduler.c:135-145 | B runs on passes 1, 6, 11 and A on passes 2, 12, and on none of the other listed passes |
| Interleaving.Started | src/UAVWare/scheduler.c:76-81 | right after start the backlog is 0, the flag is clear and the state is consistent |
| Interleaving.DispatcherStep | src/UAVWare/scheduler.c:122-161 | one atomic dispatcher step: only the masked decrement lowers the backlog, only a pass changes the table, no step touches the flag, and a return records the current flag |
| Interleaving.Conservation | src/UAVWare/scheduler.c:147-150 | with interrupts interleaved anywhere, ticks in plus the starting backlog equal dispatcher decrements plus the final backlog |
| Interleaving.ConservationSinceStart | src/UAVWare/scheduler.c:51 | counted from start, handler increments equal dispatcher decrements plus the current tick_count_g |
| Interleaving.OverrunExactly | src/UAVWare/scheduler.c:56-59 | after any interleaved run the flag is set iff it was set before or some tick took the backlog past the limit |
| Interleaving.OverrunReturnedSet | src/UAVWare/scheduler.c:159 | once the flag is set, every later dispatch call returns it set, and earlier return values are kept |
| Interleaving.TickLeavesTable | src/UAVWare/scheduler.c:45-63 | a tick changes neither the table, the firing trace nor the dispatcher's position |
| Interleaving.StepIsPass | src/UAVWare/scheduler.c:135-145 | the only step that changes the table or the firing trace is the scan step, which runs exactly one pass and appends its fired list |
| Interleaving.RunIsDrain | src/UAVWare/scheduler.c:122-161 | however ticks interleave with dispatch calls, the passes a run records are the consecutive passes of one drain of its starting table, and its table is the table that drain leaves |
| Interleaving.PassesMatchDecrements | src/UAVWare/scheduler.c:135-150 | every pass of an interleaved run is followed by exactly one masked decrement of the backlog, up to a pass still waiting for its decrement at either end |
| Interleaving.RunFiresOnSchedule | src/UAVWare/scheduler.c:135-145 | in any interleaved run, slot i runs on the run's k-th pass iff its task is due on pass k of its own schedule |
| Interleaving.OneRound | src/UAVWare/scheduler.c:135-150 | one pass followed by the masked decrement and recheck: the backlog drops by one, the loop continues iff it is still positive |
| Interleaving.DrainRounds | src/UAVWare/scheduler.c:130-154 | m uninterrupted rounds from the loop head run the first m passes of a drain and lower the backlog by m |
| Interleaving.DispatchAlone | src/UAVWare/scheduler.c:122-161 | the step machine with no interrupt during a call ends exactly where `Scheduler.Dispatch` does, and records the same passes and the returned flag |

## Findings

| source | as written | input that shows it | evidently intended | confidence | as-written member | corrected member |
|---|---|---|---|---|---|---|
| src/UAVWare/scheduler.c:209-210 | the loop condition reads `sch_tasks_g[Task_id].pTask` before testing `Task_id < SCH_MAX_TASKS` | a table with every slot occupied: the scan reaches `Task_id == SCH_MAX_TASKS` and reads one element past the end of `sch_tasks_g` | test the bound first, so that only slots `0 … SCH_MAX_TASKS-1` are read; if the read past the end returns whatever word is stored there, the returned index is the same either way. In C the read is undefined behaviour, so the language guarantees nothing about the loop's result | not executed; high (follows from C's left-to-right `&&`) | TaskTable.ScanAsWrittenReadsPastEnd | TaskTable.FindFreeSlot |

The rest of the model uses the corrected scan (`FreeSlot`, mirrored by the
loop `FindFreeSlot`). Dafny's index checks show that it reads only slots inside
the table.

## Left out

- `sch_stop` (lines 84-87) only calls the timer's stop routine. It changes no scheduler state, so it has no model.
- Timer plumbing: `UVOS_TIME_RegisterTickCallback`, `UVOS_TIME_sched_init`, `UVOS_TIME_sched_start` and `UVOS_TIME_sched_stop` are external calls. Their code is not part of this model. The `TICKhz` argument of `sch_init_hz` only reaches them.
- `debug_putc` in the tick handler is debug output.
- `__disable_irq` / `__enable_irq` are represented only as the atomicity of the steps they bracket. Real concurrency is not modelled.
- The commented-out `__WFI()` and GPIO test-pin writes are hardware or dead code.
- Task bodies are opaque. A task that calls back into the scheduler (for example `sch_add_task` during dispatch), or that never returns, is not modelled.
- The "safe shutdown" named in the comment above `sch_add_task` is not implemented by the source, which only returns `EXIT_FAILURE`. No shutdown action is modelled.
- The numeric values of `EXIT_SUCCESS` and `EXIT_FAILURE`, and the `int` return type of `sch_dispatch_tasks`, are represented as the `Status` constructors and a `bool`.
- TaskTable.ScanAsWritten: the read past the end is modelled as returning an unspecified handle (`beyond`); C leaves it undefined, so a compiler may, for example, drop the bound test and the model does not cover that. `ScanAsWrittenReadsPastEnd` holds under this abstraction only.
- Scheduler.Tick: `tick_count_g` is an unbounded natural. The 32-bit wrap after 2^32 undrained ticks is not modelled, because it is not meaningful behaviour. `Interleaving.Conservation` and `Interleaving.OverrunExactly` inherit this.
- Scheduler.Dispatch: models a call with no tick arriving while it runs. Calls with ticks interleaved are covered by `Interleaving`: `Interleaving.DispatchAlone` connects the two, and `Interleaving.RunIsDrain` and `Interleaving.RunFiresOnSchedule` carry the drain and firing results over to interleaved runs.
- `Dispatcher.WellFormed` (Delay >= 1 on occupied slots) is proved only for registrations with DELAY < UINT32_MAX, because DELAY = UINT32_MAX really does store Delay 0 (`AddTaskMaxDelayBreaksWellFormed`).

=== FILE: dispatcher.dfy ===
/** The body of the drain loop of `sch_dispatch_tasks`: one pass over the
    task table in ascending slot order, and `n` such passes in a row. A task
    body is opaque; invoking it is recorded as the slot index appended to the
    pass's firing list. */
module Dispatcher {

  import opened UInt32
  import opened TaskTable

  /** A slot after one pass, and whether its task was invoked on that pass. */
  datatype Stepped = Stepped(slot: Slot, fired: bool)

  /** What one pass does to one slot: an empty slot is skipped; an occupied
      slot has its Delay pre-decremented (as uint32_t) and, when that reaches
      0, its task runs and Delay is reloaded from Period. */
  function StepSlot(s: Slot): (r: Stepped)
    ensures !s.Occupied() ==> r == Stepped(s, false)
    ensures r.slot.task == s.task && r.slot.period == s.period
    ensures s.Occupied() ==> (r.fired <==> s.delay == 1)
    ensures s.Occupied() && r.fired ==> r.slot.delay == s.period
    ensures s.Occupied() && !r.fired && s.delay > 0 ==> r.slot.delay == s.delay - 1
    ensures s.Occupied() && s.delay == 0 ==> r.slot.delay == UINT32_MAX
  {
    if !s.Occupied() then Stepped(s, false)
    else
      var d := Dec(s.delay);
      if d == 0 then Stepped(s.(delay := s.period), true)
      else Stepped(s.(delay := d), false)
  }

  /** The slots below `n` whose task runs on this pass, in the order the
      pass visits them. */
  function FiredBelow(t: Table, n: nat): seq<nat>
    requires n <= |t|
  {
    if n == 0 then []
    else FiredBelow(t, n - 1) + (if StepSlot(t[n - 1]).fired then [n - 1] else [])
  }

  /** The fired list of the slots below `n` holds exactly the slots that
      fire, in strictly ascending order. */
  lemma {:induction false} FiredBelowSpec(t: Table, n: nat)
    requires n <= |t|
    ensures var r := FiredBelow(t, n);
      && (forall k :: 0 <= k < |r| ==> r[k] < n && StepSlot(t[r[k]]).fired)
      && (forall j :: 0 <= j < n && StepSlot(t[j]).fired ==> j in r)
      && (forall k, l :: 0 <= k < l < |r| ==> r[k] < r[l])
  {
    if n > 0 {
      FiredBelowSpec(t, n - 1);
    }
  }

  /** A table after one pass, and the slots fired during it. */
  datatype Passed = Passed(table: Table, fired: seq<nat>)

  /** One iteration of the `while ( update_required )` loop body's scan:
      every slot is stepped in ascending slot order. */
  function Pass(t: Table): Passed
  {
    Passed(seq(|t|, i requires 0 <= i < |t| => StepSlot(t[i]).slot), FiredBelow(t, |t|))
  }

  /** A pass steps every slot on its own, and lists exactly the fired slots,
      in strictly ascending slot order. */
  lemma PassSteps(t: Table)
    ensures |Pass(t).table| == |t|
    ensures forall i :: 0 <= i < |t| ==> Pass(t).table[i] == StepSlot(t[i]).slot
    ensures forall i :: 0 <= i < |t| ==> (i in Pass(t).fired <==> StepSlot(t[i]).fired)
    ensures forall k :: 0 <= k < |Pass(t).fired| ==> Pass(t).fired[k] < |t|
    ensures forall k, l :: 0 <= k < l < |Pass(t).fired| ==> Pass(t).fired[k] < Pass(t).fired[l]
  {
    FiredBelowSpec(t, |t|);
    assert Pass(t).fired == FiredBelow(t, |t|);
  }

  /** The `for ( Task_id = 0; Task_id < SCH_MAX_TASKS; Task_id++ )` loop, slot
      by slot, with the pre-decrement and reload written as the source writes
      them. */
  method RunPass(t: Table) returns (t': Table, fired: seq<nat>)
    ensures Passed(t', fired) == Pass(t)
  {
    t' := t;
    fired := [];
    var id := 0;
    while id < |t'|
      invariant id <= |t| == |t'|
      invariant forall j :: 0 <= j < id ==> t'[j] == StepSlot(t[j]).slot
      invariant forall j :: id <= j < |t| ==> t'[j] == t[j]
      invariant fired == FiredBelow(t, id)
    {
      var s := t'[id];
      if s.task != Null {
        var d := Dec(s.delay);
        if d == 0 {
          fired := fired + [id];  // the task body runs here
          s := s.(delay := s.period);
        } else {
          s := s.(delay := d);
        }
        t' := t'[id := s];
      }
      assert s == StepSlot(t[id]).slot;
      id := id + 1;
    }
    assert t' == Pass(t).table;
  }

  /** A table after `n` passes, and the firing list of each pass. */
  datatype Drained = Drained(table: Table, passes: seq<seq<nat>>)

  /** `n` iterations of the drain loop, with no task re-entering the
      scheduler: one firing list per pass. */
  function Drain(t: Table, n: nat): (r: Drained)
    ensures |r.passes| == n
    ensures |r.table| == |t|
  {
    if n == 0 then Drained(t, [])
    else
      var d := Drain(t, n - 1);
      var p := Pass(d.table);
      Drained(p.table, d.passes + [p.fired])
  }

  /** Draining never registers, removes or re-times a task: the handle and
      Period of every slot stay as they were. */
  lemma {:induction false} DrainKeepsTasks(t: Table, n: nat, i: nat)
    requires i < |t|
    ensures Drain(t, n).table[i].task == t[i].task
    ensures Drain(t, n).table[i].period == t[i].period
  {
    if n > 0 {
      DrainKeepsTasks(t, n - 1, i);
      PassSteps(Drain(t, n - 1).table);
    }
  }

  /** Pass k of `n` is the pass run on the table left by the first k. */
  lemma {:induction false} DrainPassAt(t: Table, n: nat, k: nat)
    requires k < n
    ensures Drain(t, n).passes[k] == Pass(Drain(t, k).table).fired
  {
    var d := Drain(t, n - 1);
    assert Drain(t, n).passes == d.passes + [Pass(d.table).fired];
    if k < n - 1 {
      DrainPassAt(t, n - 1, k);
      assert (d.passes + [Pass(d.table).fired])[k] == d.passes[k];
    }
  }

  /** One more pass: `n` passes are `n - 1` passes and then a pass on the
      table `u` they leave. */
  lemma DrainSucc(t: Table, n: nat, u: Table)
    requires n > 0 && Drain(t, n - 1).table == u
    ensures Drain(t, n).table == Pass(u).table
    ensures Drain(t, n).passes == Drain(t, n - 1).passes + [Pass(u).fired]
  {
  }

  /** Running `a + b` passes is running `a` and then `b` more on the table
      they leave: the pass count carries over from one dispatch call to the
      next. */
  lemma {:induction false} DrainConcat(t: Table, a: nat, b: nat)
    ensures Drain(t, a + b).table == Drain(Drain(t, a).table, b).table
    ensures Drain(t, a + b).passes == Drain(t, a).passes + Drain(Drain(t, a).table, b).passes
  {
    var front := Drain(t, a);
    if b == 0 {
      assert front.passes + [] == front.passes;
    } else {
      DrainConcat(t, a, b - 1);
      var y := Drain(front.table, b - 1);
      DrainSucc(t, a + b, y.table);
      DrainSucc(front.table, b, y.table);
      ConcatStep(Drain(t, a + b - 1).passes, y.passes, Drain(t, a + b).passes, Drain(front.table, b).passes, front.passes, Pass(y.table).fired);
    }
  }

  /** The inductive step of `DrainConcat` on the pass lists alone: appending
      the same last pass keeps the split. */
  lemma ConcatStep(x: seq<seq<nat>>, y: seq<seq<nat>>, whole: seq<seq<nat>>, rest: seq<seq<nat>>, first: seq<seq<nat>>, last: seq<nat>)
    requires x == first + y && whole == x + [last] && rest == y + [last]
    ensures whole == first + rest
  {
  }

  /** Every occupied slot has a positive Period and a positive Delay: the
      state registration establishes when DELAY < UINT32_MAX and PERIOD > 0. */
  predicate WellFormed(t: Table) {
    forall i :: 0 <= i < |t| && t[i].Occupied() ==> t[i].delay >= 1 && t[i].period >= 1
  }

  /** On a well-formed table a pass decrements every occupied slot's Delay by
      exactly one, or fires the slot and reloads Delay to Period, and so keeps
      the table well-formed. */
  lemma PassKeepsWellFormed(t: Table)
    requires WellFormed(t)
    ensures WellFormed(Pass(t).table)
    ensures forall i :: 0 <= i < |t| && t[i].Occupied() ==>
      if i in Pass(t).fired then Pass(t).table[i].delay == t[i].period
      else Pass(t).table[i].delay == t[i].delay - 1
  {
    PassSteps(t);
  }

  lemma {:induction false} DrainKeepsWellFormed(t: Table, n: nat)
    requires WellFormed(t)
    ensures WellFormed(Drain(t, n).table)
  {
    if n > 0 {
      DrainKeepsWellFormed(t, n - 1);
      PassKeepsWellFormed(Drain(t, n - 1).table);
    }
  }

  /** Registration preserves well-formedness when DELAY < UINT32_MAX. */
  lemma AddTaskKeepsWellFormed(t: Table, task: Handle, delay: u32, period: u32)
    requires WellFormed(t)
    requires delay < UINT32_MAX
    ensures WellFormed(AddTask(t, task, delay, period).table)
  {
  }

  /** With DELAY == UINT32_MAX the Delay installed by registration wraps to 0,
      so a table that is well-formed can stop being so. */
  lemma AddTaskMaxDelayBreaksWellFormed(t: Table, task: Handle, period: u32)
    requires task != Null && period > 0 && !Full(t)
    ensures !WellFormed(AddTask(t, task, UINT32_MAX, period).table)
  {
    var i := FreeSlot(t);
    assert AddTask(t, task, UINT32_MAX, period).table[i] == Slot(task, 0, period);
  }

}

=== FILE: firing.dfy ===
/** When a registered task runs. A slot is stepped once per drain pass and
    slots do not affect each other, so the schedule of a task follows from
    its own slot alone: registered with DELAY = D and PERIOD = P, it runs on
    drain passes D+1, D+1+P, D+1+2P, ... counted from registration, forever.
    This holds even for D = UINT32_MAX, where Delay wraps to 0 on
    registration and the pre-decrement wraps it back to UINT32_MAX. */
module Firing {

  import opened UInt32
  import opened TaskTable
  import opened Dispatcher

  /** A slot after `k` drain passes. */
  function SlotAfter(s: Slot, k: nat): (r: Slot)
    ensures r.task == s.task && r.period == s.period
  {
    if k == 0 then s else StepSlot(SlotAfter(s, k - 1)).slot
  }

  /** Whether the slot's task runs on drain pass `k` (the first pass is 1). */
  predicate FiresOnPass(s: Slot, k: nat)
    requires k >= 1
  {
    StepSlot(SlotAfter(s, k - 1)).fired
  }

  /** The pass on which an occupied slot first fires: its Delay, where a
      Delay of 0 stands for 2^32 because the pre-decrement wraps it. */
  function FirstDue(s: Slot): nat
  {
    if s.delay == 0 then MODULUS else s.delay
  }

  /** Euclidean remainder is determined by any quotient/remainder pair. */
  lemma ModUnique(x: int, p: int, q: int, r: int)
    requires p > 0 && 0 <= r < p && x == q * p + r
    ensures x % p == r
  {
    var q0 := x / p;
    var r0 := x % p;
    assert (q - q0) * p == r0 - r;
    if q > q0 {
      MulAtLeast(q - q0, p);
    } else if q < q0 {
      MulAtLeast(q0 - q, p);
    }
  }

  lemma MulAtLeast(a: int, p: int)
    requires a >= 1 && p > 0
    ensures a * p >= p
  {
    assert a * p == (a - 1) * p + p;
  }

  lemma ModSucc(x: nat, p: nat)
    requires p > 0
    ensures (x + 1) % p == if x % p == p - 1 then 0 else x % p + 1
  {
    if x % p == p - 1 {
      ModUnique(x + 1, p, x / p + 1, 0);
    } else {
      ModUnique(x + 1, p, x / p, x % p + 1);
    }
  }

  /** An empty slot is never modified and never fires. */
  lemma {:induction false} EmptySlotIdle(s: Slot, k: nat)
    requires !s.Occupied()
    ensures SlotAfter(s, k) == s
    ensures k >= 1 ==> !FiresOnPass(s, k)
  {
    if k > 0 {
      EmptySlotIdle(s, k - 1);
    }
  }

  /** Before its first firing a slot counts down: from Delay (e - j) mod
      2^32 to e - j - 1, without firing. */
  lemma CountdownStep(x: Slot, e: nat, j: nat)
    requires x.Occupied() && j + 1 < e <= MODULUS
    requires x.delay == (e - j) % MODULUS
    ensures !StepSlot(x).fired && StepSlot(x).slot.delay == e - j - 1
  {
  }

  /** After its first firing a slot cycles: from Delay p - (j mod p) to
      p - ((j + 1) mod p), firing exactly when (j + 1) mod p is 0. */
  lemma CycleStep(x: Slot, j: nat)
    requires x.Occupied() && x.period >= 1
    requires x.delay == x.period - j % x.period
    ensures StepSlot(x).fired <==> (j + 1) % x.period == 0
    ensures StepSlot(x).slot.delay == x.period - (j + 1) % x.period
  {
    ModSucc(j, x.period);
  }

  /** The Delay of an occupied slot with a positive Period after `k` passes:
      counting down to its first firing, then cycling through P, P-1, ..., 1. */
  lemma {:induction false} SlotDelayAfter(s: Slot, k: nat)
    requires s.Occupied() && s.period >= 1
    ensures SlotAfter(s, k).delay == DelayFormula(s, k)
  {
    if k > 0 {
      SlotDelayAfter(s, k - 1);
      DelayStep(s, k);
    }
  }

  /** The closed form of SlotAfter(s, k).delay. */
  function DelayFormula(s: Slot, k: nat): int
    requires s.period >= 1
  {
    if k < FirstDue(s) then (FirstDue(s) - k) % MODULUS
    else s.period - (k - FirstDue(s)) % s.period
  }

  lemma DelayStep(s: Slot, k: nat)
    requires s.Occupied() && s.period >= 1 && k > 0
    requires SlotAfter(s, k - 1).delay == DelayFormula(s, k - 1)
    ensures SlotAfter(s, k).delay == DelayFormula(s, k)
  {
    var e := FirstDue(s);
    var before := SlotAfter(s, k - 1);
    if k < e {
      CountdownStep(before, e, k - 1);
    } else if k == e {
      FirstFiring(before, s.period);
      assert (k - e) % s.period == 0;
    } else {
      CycleStep(before, k - 1 - e);
    }
  }

  lemma FirstFiring(x: Slot, p: nat)
    requires x.Occupied() && x.period == p >= 1 && x.delay == 1
    ensures StepSlot(x).fired && StepSlot(x).slot.delay == p
  {
  }

  /** An occupied slot with a positive Period fires on pass k exactly when k
      is its first due pass or a whole number of periods after it. */
  lemma SlotFiresOnPass(s: Slot, k: nat)
    requires s.Occupied() && s.period >= 1
    requires k >= 1
    ensures FiresOnPass(s, k) <==> k >= FirstDue(s) && (k - FirstDue(s)) % s.period == 0
  {
    SlotDelayAfter(s, k - 1);
    var e := FirstDue(s);
    var before := SlotAfter(s, k - 1);
    assert FiresOnPass(s, k) == StepSlot(before).fired;
    if k < e {
      assert before.delay == (e - (k - 1)) % MODULUS;
      CountdownStep(before, e, k - 1);
    } else if k == e {
      assert before.delay == 1 % MODULUS == 1;
      assert (k - e) % s.period == 0;
    } else {
      assert before.delay == s.period - (k - 1 - e) % s.period;
      CycleStep(before, k - 1 - e);
      assert k - 1 - e + 1 == k - e;
    }
  }

  /** After `n` passes every slot is where `n` steps of its own take it. */
  lemma {:induction false} DrainSlotAt(t: Table, n: nat, i: nat)
    requires i < |t|
    ensures Drain(t, n).table[i] == SlotAfter(t[i], n)
  {
    if n > 0 {
      DrainSlotAt(t, n - 1, i);
      PassSteps(Drain(t, n - 1).table);
    }
  }

  /** Slot i appears in the firing list of pass k exactly when its own
      schedule says it fires on pass k. */
  lemma DrainFiresAt(t: Table, n: nat, k: nat, i: nat)
    requires 1 <= k <= n && i < |t|
    ensures i in Drain(t, n).passes[k - 1] <==> FiresOnPass(t[i], k)
  {
    DrainPassAt(t, n, k - 1);
    DrainSlotAt(t, k - 1, i);
    PassSteps(Drain(t, k - 1).table);
  }

  /** A task registered with DELAY = D and PERIOD = P into slot FreeSlot(t)
      fires on drain pass k (counted from registration) exactly when
      k = D+1 + m*P for some m >= 0. */
  lemma RegisteredTaskSchedule(t: Table, task: Handle, delay: u32, period: u32, n: nat, k: nat)
    requires task != Null
    requires AddTask(t, task, delay, period).status == ExitSuccess
    requires 1 <= k <= n
    ensures FreeSlot(t) < |t|
    ensures (FreeSlot(t) in Drain(AddTask(t, task, delay, period).table, n).passes[k - 1])
        <==> k >= delay + 1 && (k - (delay + 1)) % period == 0
  {
    var i := FreeSlot(t);
    var t' := AddTask(t, task, delay, period).table;
    assert t'[i] == Slot(task, Inc(delay), period);
    assert FirstDue(t'[i]) == delay + 1;
    DrainFiresAt(t', n, k, i);
    SlotFiresOnPass(t'[i], k);
  }

  /** ... and it never stops: pass D+1 + m*P fires for every m. */
  lemma RegisteredTaskFiresForever(t: Table, task: Handle, delay: u32, period: u32, m: nat)
    requires task != Null
    requires AddTask(t, task, delay, period).status == ExitSuccess
    ensures var k := delay + 1 + m * period;
      FreeSlot(t) in Drain(AddTask(t, task, delay, period).table, k).passes[k - 1]
  {
    var k := delay + 1 + m * period;
    ModUnique(m * period, period, m, 0);
    RegisteredTaskSchedule(t, task, delay, period, k, k);
  }

  /** Registering A (DELAY 1, PERIOD 10) and then B (DELAY 0, PERIOD 5) on an
      empty table of capacity 4 puts A in slot 0 and B in slot 1. */
  lemma TwoTaskTable(t: Table)
    requires |t| == 4 && AllEmpty(t)
    ensures var r := AddAll(t, [Request(Fn(0), 1, 10), Request(Fn(1), 0, 5)]);
      && r.statuses == [ExitSuccess, ExitSuccess]
      && r.table[0] == Slot(Fn(0), 2, 10)
      && r.table[1] == Slot(Fn(1), 1, 5)
  {
    var reqs := [Request(Fn(0), 1, 10), Request(Fn(1), 0, 5)];
    AddAllFillsInOrder(t, reqs);
    var r := AddAll(t, reqs);
    assert r.statuses[0] == ExitSuccess && r.statuses[1] == ExitSuccess;
  }

  /** ... after which A runs on passes 2, 12, ... and B on passes 1, 6, 11, .... */
  lemma TwoTaskExample(t: Table, n: nat)
    requires |t| == 4 && AllEmpty(t)
    requires n >= 12
    ensures var r := AddAll(t, [Request(Fn(0), 1, 10), Request(Fn(1), 0, 5)]);
      var d := Drain(r.table, n);
      && 1 in d.passes[0] && 0 !in d.passes[0]
      && 0 in d.passes[1] && 1 !in d.passes[1]
      && 1 in d.passes[5] && 0 !in d.passes[5]
      && 1 in d.passes[10] && 0 !in d.passes[10]
      && 0 in d.passes[11] && 1 !in d.passes[11]
  {
    TwoTaskTable(t);
    TwoTaskPasses(AddAll(t, [Request(Fn(0), 1, 10), Request(Fn(1), 0, 5)]).table, n);
  }

  lemma TwoTaskPasses(tbl: Table, n: nat)
    requires |tbl| == 4 && tbl[0] == Slot(Fn(0), 2, 10) && tbl[1] == Slot(Fn(1), 1, 5)
    requires n >= 12
    ensures var d := Drain(tbl, n);
      && 1 in d.passes[0] && 0 !in d.passes[0]
      && 0 in d.passes[1] && 1 !in d.passes[1]
      && 1 in d.passes[5] && 0 !in d.passes[5]
      && 1 in d.passes[10] && 0 !in d.passes[10]
      && 0 in d.passes[11] && 1 !in d.passes[11]
  {
    ExampleSlotPass(tbl, n, 0, 1);
    ExampleSlotPass(tbl, n, 0, 2);
    ExampleSlotPass(tbl, n, 0, 6);
    ExampleSlotPass(tbl, n, 0, 11);
    ExampleSlotPass(tbl, n, 0, 12);
    ExampleSlotPass(tbl, n, 1, 1);
    ExampleSlotPass(tbl, n, 1, 2);
    ExampleSlotPass(tbl, n, 1, 6);
    ExampleSlotPass(tbl, n, 1, 11);
    ExampleSlotPass(tbl, n, 1, 12);
  }

  lemma ExampleSlotPass(tbl: Table, n: nat, i: nat, k: nat)
    requires i < |tbl| && tbl[i].Occupied() && tbl[i].period >= 1 && tbl[i].delay >= 1
    requires 1 <= k <= n
    ensures (i in Drain(tbl, n).passes[k - 1]) <==> k >= tbl[i].delay && (k - tbl[i].delay) % tbl[i].period == 0
  {
    DrainFiresAt(tbl, n, k, i);
    SlotFiresOnPass(tbl[i], k);
  }

}

=== FILE: interleaving.dfy ===
/** `sch_dispatch_tasks` as a sequence of atomic steps, with the tick
    interrupt allowed to arrive between any two of them.

    The only state the interrupt and the dispatcher share is `tick_count_g`,
    and the dispatcher reads and writes it only inside interrupt-masked
    sections (the initial check, and the decrement-and-recheck at the end of
    each pass). A drain pass reads and writes only the task table, which the
    interrupt never touches, so it can be taken as one atomic step. Reading
    the overrun flag for the return value is a step of its own: a tick may
    still raise the flag between the last recheck and the return. */
module Interleaving {

  import opened TaskTable
  import opened Dispatcher
  import opened Scheduler
  import opened Firing

  /** Where the dispatcher is: `Idle` outside `sch_dispatch_tasks`;
      `Scanning` with `update_required` true, before a drain pass;
      `Draining` after a pass, before the masked decrement and recheck;
      `Returning` after the loop, before the flag is read and returned. */
  datatype Phase = Idle | Scanning | Draining | Returning

  /** The scheduler state, the dispatcher's position, the firing list of
      every drain pass so far (task invocations as slot indices, in order) and
      every value dispatch returned. */
  datatype Sys = Sys(core: Sched, phase: Phase, trace: seq<seq<nat>>, returned: seq<bool>)

  /** One atomic step: the tick interrupt, or the dispatcher's next step. */
  datatype Event = TickIrq | DispatchStep

  /** While a pass or a decrement is pending the backlog is positive: the
      dispatcher only gets there after seeing `tick_count_g > 0`, and only it
      decrements. */
  predicate Valid(sys: Sys) {
    (sys.phase == Scanning || sys.phase == Draining) ==> sys.core.tickCount > 0
  }

  /** A freshly started scheduler: `sch_start` with the dispatcher idle. */
  function Started(s: Sched): (sys: Sys)
    ensures Valid(sys) && sys.core.tickCount == 0 && !sys.core.overrun
  {
    Sys(Start(s), Idle, [], [])
  }

  function DispatcherStep(sys: Sys): (r: Sys)
    requires Valid(sys)
    ensures Valid(r)
    ensures r.core.overrun == sys.core.overrun
    ensures r.core.tickCount == if sys.phase == Draining then sys.core.tickCount - 1 else sys.core.tickCount
    ensures sys.phase != Scanning ==> r.core.table == sys.core.table && r.trace == sys.trace
    ensures |sys.returned| <= |r.returned| && r.returned[..|sys.returned|] == sys.returned
    ensures forall j :: |sys.returned| <= j < |r.returned| ==> r.returned[j] == sys.core.overrun
  {
    var s := sys.core;
    match sys.phase
    case Idle =>
      sys.(phase := if s.tickCount > 0 then Scanning else Returning)
    case Scanning =>
      var p := Pass(s.table);
      Sys(s.(table := p.table), Draining, sys.trace + [p.fired], sys.returned)
    case Draining =>
      var c := s.tickCount - 1;
      Sys(s.(tickCount := c), if c > 0 then Scanning else Returning, sys.trace, sys.returned)
    case Returning =>
      Sys(s, Idle, sys.trace, sys.returned + [s.overrun])
  }

  function Step(sys: Sys, e: Event, limit: nat): (r: Sys)
    requires Valid(sys)
    ensures Valid(r)
  {
    match e
    case TickIrq => sys.(core := Tick(sys.core, limit))
    case DispatchStep => DispatcherStep(sys)
  }

  function Run(sys: Sys, es: seq<Event>, limit: nat): (r: Sys)
    requires Valid(sys)
    ensures Valid(r)
    decreases |es|
  {
    if es == [] then sys else Run(Step(sys, es[0], limit), es[1..], limit)
  }

  /** The number of tick interrupts in a run. */
  function TickCount(es: seq<Event>): nat
  {
    if es == [] then 0 else (if es[0] == TickIrq then 1 else 0) + TickCount(es[1..])
  }

  /** The number of masked decrements of `tick_count_g` the dispatcher makes
      during a run. */
  function Decrements(sys: Sys, es: seq<Event>, limit: nat): nat
    requires Valid(sys)
    decreases |es|
  {
    if es == [] then 0
    else
      (if es[0] == DispatchStep && sys.phase == Draining then 1 else 0)
      + Decrements(Step(sys, es[0], limit), es[1..], limit)
  }

  /** No tick is lost or counted twice, however the interrupt interleaves
      with the dispatcher: ticks in + backlog before = decrements + backlog
      after. */
  lemma {:induction false} Conservation(sys: Sys, es: seq<Event>, limit: nat)
    requires Valid(sys)
    ensures TickCount(es) + sys.core.tickCount == Decrements(sys, es, limit) + Run(sys, es, limit).core.tickCount
    decreases |es|
  {
    if es != [] {
      Conservation(Step(sys, es[0], limit), es[1..], limit);
    }
  }

  /** Counted from `sch_start`, the tick handler's increments equal the
      dispatcher's decrements plus the current backlog. */
  lemma ConservationSinceStart(s: Sched, es: seq<Event>, limit: nat)
    ensures TickCount(es) == Decrements(Started(s), es, limit) + Run(Started(s), es, limit).core.tickCount
  {
    Conservation(Started(s), es, limit);
  }

  /** Whether some tick interrupt in the run takes the backlog past the
      limit. */
  predicate Exceeded(sys: Sys, es: seq<Event>, limit: nat)
    requires Valid(sys)
    decreases |es|
  {
    if es == [] then false
    else (es[0] == TickIrq && sys.core.tickCount + 1 > limit)
         || Exceeded(Step(sys, es[0], limit), es[1..], limit)
  }

  /** The overrun flag is set after a run exactly when it was set before or
      some tick in the run pushed the backlog past the limit: no step other
      than a tick sets it, and no step clears it. */
  lemma {:induction false} OverrunExactly(sys: Sys, es: seq<Event>, limit: nat)
    requires Valid(sys)
    ensures Run(sys, es, limit).core.overrun <==> sys.core.overrun || Exceeded(sys, es, limit)
    decreases |es|
  {
    if es != [] {
      OverrunExactly(Step(sys, es[0], limit), es[1..], limit);
    }
  }

  /** Once the flag is set, every later dispatch call returns it set. */
  lemma {:induction false} OverrunReturnedSet(sys: Sys, es: seq<Event>, limit: nat)
    requires Valid(sys)
    requires sys.core.overrun
    ensures var r := Run(sys, es, limit);
      && |sys.returned| <= |r.returned|
      && r.returned[..|sys.returned|] == sys.returned
      && forall j :: |sys.returned| <= j < |r.returned| ==> r.returned[j]
    decreases |es|
  {
    if es != [] {
      var next := Step(sys, es[0], limit);
      OverrunReturnedSet(next, es[1..], limit);
      var r := Run(next, es[1..], limit);
      assert r.returned[..|sys.returned|] == r.returned[..|next.returned|][..|sys.returned|];
    }
  }

  /** The task table is changed only by drain passes, never by a tick. */
  lemma TickLeavesTable(sys: Sys, limit: nat)
    requires Valid(sys)
    ensures Step(sys, TickIrq, limit).core.table == sys.core.table
    ensures Step(sys, TickIrq, limit).trace == sys.trace
    ensures Step(sys, TickIrq, limit).phase == sys.phase
  {
  }

  /** A step runs one drain pass exactly when it is the dispatcher's step
      from `Scanning`; every other step leaves the table and the trace alone. */
  lemma StepIsPass(sys: Sys, e: Event, limit: nat)
    requires Valid(sys)
    ensures var r := Step(sys, e, limit);
      if e == DispatchStep && sys.phase == Scanning then
        r.core.table == Pass(sys.core.table).table && r.trace == sys.trace + [Pass(sys.core.table).fired]
      else
        r.core.table == sys.core.table && r.trace == sys.trace
  {
  }

  /** `r` is `sys` after some number of drain passes: its table and the new
      part of its trace are those of `Drain` on the table `sys` started with. */
  predicate IsDrainOf(sys: Sys, r: Sys) {
    && |sys.trace| <= |r.trace|
    && var m := |r.trace| - |sys.trace|;
      && r.core.table == Drain(sys.core.table, m).table
      && r.trace == sys.trace + Drain(sys.core.table, m).passes
  }

  /** However ticks interleave with the dispatcher, within a call or between
      calls, the passes a run makes are consecutive passes of one drain of
      the table it started from: interrupts never change which tasks run on
      which pass. */
  lemma {:induction false} RunIsDrain(sys: Sys, es: seq<Event>, limit: nat)
    requires Valid(sys)
    ensures IsDrainOf(sys, Run(sys, es, limit))
    decreases |es|
  {
    if es == [] {
      assert sys.trace + [] == sys.trace;
    } else {
      var next := Step(sys, es[0], limit);
      StepIsPass(sys, es[0], limit);
      RunIsDrain(next, es[1..], limit);
      var r := Run(next, es[1..], limit);
      assert Run(sys, es, limit) == r;
      if es[0] == DispatchStep && sys.phase == Scanning {
        DrainOfPass(sys, next, r);
      } else {
        DrainOfSame(sys, next, r);
      }
    }
  }

  /** A pass in front of a drain makes a longer drain. */
  lemma DrainOfPass(sys: Sys, next: Sys, r: Sys)
    requires next.core.table == Pass(sys.core.table).table
    requires next.trace == sys.trace + [Pass(sys.core.table).fired]
    requires IsDrainOf(next, r)
    ensures IsDrainOf(sys, r)
  {
    var m := |r.trace| - |next.trace|;
    DrainAfterPass(sys.core.table, m, sys.trace);
    assert 1 + m == |r.trace| - |sys.trace|;
  }

  lemma DrainOfSame(sys: Sys, next: Sys, r: Sys)
    requires next.core.table == sys.core.table && next.trace == sys.trace
    requires IsDrainOf(next, r)
    ensures IsDrainOf(sys, r)
  {
  }

  /** One pass followed by `m` more is a drain of `1 + m` passes. */
  lemma DrainAfterPass(t: Table, m: nat, before: seq<seq<nat>>)
    ensures Drain(Pass(t).table, m).table == Drain(t, 1 + m).table
    ensures (before + [Pass(t).fired]) + Drain(Pass(t).table, m).passes == before + Drain(t, 1 + m).passes
  {
    var p := Pass(t);
    DrainConcat(t, 1, m);
    DrainSucc(t, 1, t);
    assert [] + [p.fired] == [p.fired];
    assert (before + [p.fired]) + Drain(p.table, m).passes == before + ([p.fired] + Drain(p.table, m).passes);
  }

  /** Every drain pass is paid for by one masked decrement of the backlog,
      so, with `Conservation`, a run makes one pass per tick it consumes; a
      pass whose decrement is still pending counts on the side it falls. */
  lemma {:induction false} PassesMatchDecrements(sys: Sys, es: seq<Event>, limit: nat)
    requires Valid(sys)
    ensures var r := Run(sys, es, limit);
      |r.trace| - |sys.trace| + (if sys.phase == Draining then 1 else 0)
      == Decrements(sys, es, limit) + (if r.phase == Draining then 1 else 0)
    decreases |es|
  {
    if es != [] {
      StepIsPass(sys, es[0], limit);
      PassesMatchDecrements(Step(sys, es[0], limit), es[1..], limit);
    }
  }

  /** The firing schedule holds for interleaved runs: slot i runs on the k-th
      pass of a run exactly when its own schedule says it fires on pass k. */
  lemma RunFiresOnSchedule(sys: Sys, es: seq<Event>, limit: nat, k: nat, i: nat)
    requires Valid(sys) && i < |sys.core.table|
    requires 1 <= k && |sys.trace| + k <= |Run(sys, es, limit).trace|
    ensures i in Run(sys, es, limit).trace[|sys.trace| + k - 1] <==> FiresOnPass(sys.core.table[i], k)
  {
    RunIsDrain(sys, es, limit);
    var r := Run(sys, es, limit);
    var m := |r.trace| - |sys.trace|;
    DrainFiresAt(sys.core.table, m, k, i);
    assert r.trace[|sys.trace| + k - 1] == Drain(sys.core.table, m).passes[k - 1];
  }

  lemma {:induction false} RunAppend(sys: Sys, a: seq<Event>, b: seq<Event>, limit: nat)
    requires Valid(sys)
    ensures Run(sys, a + b, limit) == Run(Run(sys, a, limit), b, limit)
    decreases |a|
  {
    if a == [] {
      assert a + b == b;
    } else {
      assert (a + b)[0] == a[0];
      assert (a + b)[1..] == a[1..] + b;
      RunAppend(Step(sys, a[0], limit), a[1..], b, limit);
    }
  }

  /** `n` dispatcher steps in a row, with no interrupt between them. */
  function DispatchSteps(n: nat): (es: seq<Event>)
    ensures |es| == n && TickCount(es) == 0
  {
    if n == 0 then [] else [DispatchStep] + DispatchSteps(n - 1)
  }

  lemma {:induction false} DispatchStepsAppend(a: nat, b: nat)
    ensures DispatchSteps(a + b) == DispatchSteps(a) + DispatchSteps(b)
  {
    if a > 0 {
      DispatchStepsAppend(a - 1, b);
    }
  }

  /** One uninterrupted round from the top of the drain loop: a pass, then
      the masked decrement and recheck. */
  lemma OneRound(sys: Sys, limit: nat)
    requires sys.phase == Scanning && 0 < sys.core.tickCount
    ensures var p := Pass(sys.core.table);
      var c := sys.core.tickCount - 1;
      Run(sys, [DispatchStep, DispatchStep], limit)
        == Sys(Sched(p.table, c, sys.core.overrun), if c > 0 then Scanning else Returning,
               sys.trace + [p.fired], sys.returned)
  {
    var two := [DispatchStep, DispatchStep];
    assert two[1..] == [DispatchStep];
    assert [DispatchStep][1..] == [];
  }

  /** From the top of the drain loop with backlog n, m <= n rounds of pass
      and decrement, uninterrupted, run exactly the first m passes of a
      drain. */
  lemma {:induction false} DrainRounds(sys: Sys, m: nat, limit: nat)
    requires sys.phase == Scanning && 0 < sys.core.tickCount && m <= sys.core.tickCount
    ensures var r := Run(sys, DispatchSteps(2 * m), limit);
      var d := Drain(sys.core.table, m);
      && r.core == Sched(d.table, sys.core.tickCount - m, sys.core.overrun)
      && r.phase == (if m < sys.core.tickCount then Scanning else Returning)
      && r.trace == sys.trace + d.passes
      && r.returned == sys.returned
  {
    if m > 0 {
      DrainRounds(sys, m - 1, limit);
      RoundsStep(sys, m, limit);
    }
  }

  /** The m-th uninterrupted round, taken after the first m - 1. */
  lemma RoundsStep(sys: Sys, m: nat, limit: nat)
    requires Valid(sys) && m > 0
    requires Run(sys, DispatchSteps(2 * (m - 1)), limit).phase == Scanning
    ensures var mid := Run(sys, DispatchSteps(2 * (m - 1)), limit);
      var p := Pass(mid.core.table);
      var c := mid.core.tickCount - 1;
      Run(sys, DispatchSteps(2 * m), limit)
        == Sys(Sched(p.table, c, mid.core.overrun), if c > 0 then Scanning else Returning,
               mid.trace + [p.fired], mid.returned)
  {
    var mid := Run(sys, DispatchSteps(2 * (m - 1)), limit);
    DispatchStepsAppend(2 * (m - 1), 2);
    assert DispatchSteps(2) == [DispatchStep, DispatchStep];
    RunAppend(sys, DispatchSteps(2 * (m - 1)), [DispatchStep, DispatchStep], limit);
    OneRound(mid, limit);
  }

  /** The events of one `sch_dispatch_tasks` call with backlog n and no
      interrupt while it runs. */
  function CallSteps(n: nat): nat
  {
    2 * n + 2
  }

  /** The step machine, left alone, does what `Dispatch` says: exactly
      `tick_count_g` passes, backlog 0, the flag returned. */
  lemma DispatchAlone(sys: Sys, limit: nat)
    requires Valid(sys) && sys.phase == Idle
    ensures var d := Dispatch(sys.core);
      Run(sys, DispatchSteps(CallSteps(sys.core.tickCount)), limit)
        == Sys(d.state, Idle, sys.trace + d.passes, sys.returned + [d.result])
  {
    var n := sys.core.tickCount;
    var d := Dispatch(sys.core);
    if n == 0 {
      assert DispatchSteps(2) == [DispatchStep, DispatchStep];
      assert d.passes == [];
    } else {
      DispatchStepsAppend(1, 2 * n + 1);
      DispatchStepsAppend(2 * n, 1);
      assert DispatchSteps(CallSteps(n)) == DispatchSteps(1) + (DispatchSteps(2 * n) + DispatchSteps(1));
      var first := Step(sys, DispatchStep, limit);
      RunAppend(sys, DispatchSteps(1), DispatchSteps(2 * n) + DispatchSteps(1), limit);
      assert Run(sys, DispatchSteps(1), limit) == first;
      RunAppend(first, DispatchSteps(2 * n), DispatchSteps(1), limit);
      DrainRounds(first, n, limit);
    }
  }

}

=== FILE: scheduler.dfy ===
/** The scheduler's whole state and its public operations: the tick handler
    `sch_tick_handler`, `sch_init_hz`, `sch_start` and, with no tick arriving
    while it runs, `sch_dispatch_tasks`.

    SCH_TICK_COUNT_LIMIT is a model parameter (`limit`). The tick rate passed
    to `sch_init_hz` only configures the timer, which is outside the model. */
module Scheduler {

  import opened UInt32
  import opened TaskTable
  import opened Dispatcher

  /** `sch_tasks_g`, `tick_count_g` (the backlog of undrained ticks) and
      `scheduler_overrun_flag`. */
  datatype Sched = Sched(table: Table, tickCount: nat, overrun: bool)

  /** The static state of a scheduler of capacity `cap` (SCH_MAX_TASKS)
      before any call: zero-initialised. */
  function Boot(cap: nat): (s: Sched)
    requires cap > 0
    ensures |s.table| == cap && AllEmpty(s.table)
    ensures s.tickCount == 0 && !s.overrun
  {
    Sched(ZeroTable(cap), 0, false)
  }

  /** `sch_tick_handler`: one more undrained tick; the overrun flag is raised
      when the new backlog exceeds the limit and is never lowered. */
  function Tick(s: Sched, limit: nat): (r: Sched)
    ensures r.tickCount == s.tickCount + 1
    ensures r.overrun <==> s.overrun || s.tickCount >= limit
    ensures r.table == s.table
  {
    var c := s.tickCount + 1;
    Sched(s.table, c, if c > limit then true else s.overrun)
  }

  /** `sch_init_hz`: every slot is emptied; the backlog and the flag are not
      touched. */
  function InitHz(s: Sched): (r: Sched)
    ensures |r.table| == |s.table| && AllEmpty(r.table)
    ensures r.tickCount == s.tickCount && r.overrun == s.overrun
  {
    s.(table := Clear(s.table))
  }

  /** `sch_start`: the backlog is zeroed and the overrun flag cleared,
      whatever they were; the table is not touched. */
  function Start(s: Sched): (r: Sched)
    ensures r.tickCount == 0 && !r.overrun
    ensures r.table == s.table
  {
    s.(tickCount := 0, overrun := false)
  }

  /** `sch_add_task` acting on the scheduler's table. */
  function Register(s: Sched, task: Handle, delay: u32, period: u32): (r: (Sched, Status))
    ensures r.0.tickCount == s.tickCount && r.0.overrun == s.overrun
    ensures r.1 == ExitFailure ==> r.0 == s
    ensures r.1 == ExitFailure <==> Full(s.table) || period == 0
  {
    var a := AddTask(s.table, task, delay, period);
    (s.(table := a.table), a.status)
  }

  /** The state after a dispatch call, the value it returns, and the firing
      list of each drain pass. */
  datatype Dispatched = Dispatched(state: Sched, result: bool, passes: seq<seq<nat>>)

  /** `sch_dispatch_tasks` when no tick arrives while it runs: exactly
      `tick_count_g` drain passes, after which the backlog is 0; the overrun
      flag is returned and left as it was. */
  function Dispatch(s: Sched): (r: Dispatched)
    ensures |r.passes| == s.tickCount
    ensures r.state.tickCount == 0
    ensures r.result == s.overrun && r.state.overrun == s.overrun
    ensures |r.state.table| == |s.table|
    ensures s.tickCount == 0 ==> r.state == s && r.passes == []
  {
    var d := Drain(s.table, s.tickCount);
    Dispatched(Sched(d.table, 0, s.overrun), s.overrun, d.passes)
  }

  /** `k` tick interrupts in a row. */
  function Ticks(s: Sched, limit: nat, k: nat): (r: Sched)
    ensures r.tickCount == s.tickCount + k && r.table == s.table
    ensures s.overrun ==> r.overrun
  {
    if k == 0 then s else Tick(Ticks(s, limit, k - 1), limit)
  }

  /** A dispatch, `k` more ticks, and a second dispatch run exactly the
      passes of one drain of all the ticks: task schedules are counted in
      drain passes, whatever the dispatch calls they fall into. */
  lemma {:induction false} DispatchTwice(s: Sched, limit: nat, k: nat)
    ensures var first := Dispatch(s);
      var second := Dispatch(Ticks(first.state, limit, k));
      var whole := Drain(s.table, s.tickCount + k);
      second.state.table == whole.table && first.passes + second.passes == whole.passes
  {
    DrainConcat(s.table, s.tickCount, k);
  }

  /** Neither the tick handler nor the dispatcher ever clears the overrun
      flag; only `sch_start` does. */
  lemma OverrunSticky(s: Sched, limit: nat)
    requires s.overrun
    ensures Tick(s, limit).overrun
    ensures Dispatch(s).state.overrun && Dispatch(s).result
    ensures InitHz(s).overrun
    ensures !Start(s).overrun
  {
  }

  /** Dispatch keeps the Delay >= 1 invariant of a well-formed table. */
  lemma {:induction false} DispatchKeepsWellFormed(s: Sched)
    requires WellFormed(s.table)
    ensures WellFormed(Dispatch(s).state.table)
  {
    DrainKeepsWellFormed(s.table, s.tickCount);
  }

  /** Every firing list of a dispatch names occupied slots in strictly
      ascending slot order. */
  lemma {:induction false} DispatchFiresInSlotOrder(s: Sched, k: nat)
    requires k < s.tickCount
    ensures var p := Dispatch(s).passes[k];
      && (forall a, b :: 0 <= a < b < |p| ==> p[a] < p[b])
      && (forall a :: 0 <= a < |p| ==> p[a] < |s.table| && s.table[p[a]].Occupied())
  {
    DrainPassAt(s.table, s.tickCount, k);
    var d := Drain(s.table, k);
    var p := Pass(d.table).fired;
    PassSteps(d.table);
    forall a | 0 <= a < |p| ensures s.table[p[a]].Occupied() {
      DrainKeepsTasks(s.table, k, p[a]);
    }
  }

}

=== FILE: task_table.dfy ===
/** The scheduler's fixed-capacity task table `sch_tasks_g` and the two
    operations that write it outside dispatch: clearing it (the table part of
    `sch_init_hz`) and first-fit registration (`sch_add_task`).

    The capacity SCH_MAX_TASKS is a model parameter: it is the length of the
    table, fixed when the table is created and never changed by any
    operation. */
module TaskTable {

  import opened UInt32

  /** A task function pointer: `Null` is SCH_NULL_PTR, `Fn(id)` an opaque task
      body that takes no arguments and returns nothing. */
  datatype Handle = Null | Fn(id: nat)

  /** One `sTask_t` record: `pTask`, `Delay` and `Period`. The slot is occupied
      iff its handle is not null; an empty slot's Delay and Period are left
      over from whatever was there before and mean nothing. */
  datatype Slot = Slot(task: Handle, delay: u32, period: u32) {
    predicate Occupied() {
      task != Null
    }
  }

  type Table = seq<Slot>

  /** The two return codes of `sch_add_task`. Both failure causes return the
      same EXIT_FAILURE. */
  datatype Status = ExitSuccess | ExitFailure

  datatype Added = Added(table: Table, status: Status)

  /** One registration request: the arguments pTask, DELAY, PERIOD. */
  datatype Request = Request(task: Handle, delay: u32, period: u32)

  predicate AllEmpty(t: Table) {
    forall i :: 0 <= i < |t| ==> !t[i].Occupied()
  }

  predicate Full(t: Table) {
    forall i :: 0 <= i < |t| ==> t[i].Occupied()
  }

  /** The zero-initialised static table of capacity `cap` before any call.
      Every slot is empty on the assumption that SCH_NULL_PTR is the all-zero
      value (it is defined in `scheduler.h`, which is not part of this model). */
  function ZeroTable(cap: nat): (t: Table)
    ensures |t| == cap
    ensures AllEmpty(t)
  {
    seq(cap, i => Slot(Null, 0, 0))
  }

  /** The table-clearing loop of `sch_init_hz`: every pTask becomes null and
      nothing else is written. */
  function Clear(t: Table): (r: Table)
    ensures |r| == |t|
    ensures AllEmpty(r)
    ensures forall i :: 0 <= i < |t| ==> r[i].delay == t[i].delay && r[i].period == t[i].period
  {
    seq(|t|, i requires 0 <= i < |t| => t[i].(task := Null))
  }

  /** The first empty slot at or after `from`, or `|t|` (SCH_MAX_TASKS) when
      there is none. The bound is tested before the slot is read. */
  function FirstFree(t: Table, from: nat): (id: nat)
    requires from <= |t|
    ensures from <= id <= |t|
    ensures forall j :: from <= j < id ==> t[j].Occupied()
    ensures id < |t| ==> !t[id].Occupied()
    decreases |t| - from
  {
    if from == |t| || !t[from].Occupied() then from else FirstFree(t, from + 1)
  }

  /** The slot registration claims: the lowest-index empty slot, or `|t|`
      when every slot is occupied. */
  function FreeSlot(t: Table): nat
  {
    FirstFree(t, 0)
  }

  /** The search loop of `sch_add_task` on the table, with the bound tested
      before the slot is read. The source tests the slot first and so reads
      one element past the array on a full table; see `ScanAsWritten`. */
  method FindFreeSlot(t: Table) returns (id: nat)
    ensures id <= |t|
    ensures forall j :: 0 <= j < id ==> t[j].Occupied()
    ensures id < |t| ==> !t[id].Occupied()
    ensures id == FreeSlot(t)
  {
    id := 0;
    while id < |t| && t[id].Occupied()
      invariant id <= |t|
      invariant FirstFree(t, id) == FirstFree(t, 0)
    {
      id := id + 1;
    }
  }

  /** `sch_add_task(pTask, DELAY, PERIOD)`. The full-table test comes first,
      then the period test; on success the claimed slot gets the handle,
      `Delay = DELAY + 1` (wrapping at UINT32_MAX) and `Period = PERIOD`. */
  function AddTask(t: Table, task: Handle, delay: u32, period: u32): (r: Added)
    ensures |r.table| == |t|
    ensures r.status == ExitFailure <==> Full(t) || period == 0
    ensures r.status == ExitFailure ==> r.table == t
    ensures forall i :: 0 <= i < |t| && !t[i].Occupied() && period > 0 && (forall j :: 0 <= j < i ==> t[j].Occupied())
              ==> r == Added(t[i := Slot(task, Inc(delay), period)], ExitSuccess)
  {
    var id := FreeSlot(t);
    if id == |t| then
      Added(t, ExitFailure)
    else if period == 0 then
      Added(t, ExitFailure)
    else
      Added(t[id := Slot(task, Inc(delay), period)], ExitSuccess)
  }

  /** Registration never clears an occupied slot or changes its contents, and
      a successful registration of a non-null handle occupies exactly one more
      slot, whose Delay is DELAY + 1 when DELAY < UINT32_MAX. */
  lemma AddTaskFrame(t: Table, task: Handle, delay: u32, period: u32)
    ensures var r := AddTask(t, task, delay, period);
      forall i :: 0 <= i < |t| && t[i].Occupied() ==> r.table[i] == t[i]
    ensures var r := AddTask(t, task, delay, period);
      r.status == ExitSuccess ==>
        exists i :: 0 <= i < |t| && !t[i].Occupied() && r.table[i] == Slot(task, Inc(delay), period)
               && (forall j :: 0 <= j < |t| && j != i ==> r.table[j] == t[j])
    ensures var r := AddTask(t, task, delay, period);
      r.status == ExitSuccess && delay < UINT32_MAX ==> r.table[FreeSlot(t)].delay == delay + 1
  {
    var r := AddTask(t, task, delay, period);
    if r.status == ExitSuccess {
      var i := FreeSlot(t);
      assert !t[i].Occupied() && r.table[i] == Slot(task, Inc(delay), period);
    }
  }

  /** Successive registrations, each on the table the previous one left. */
  datatype Batch = Batch(table: Table, statuses: seq<Status>)

  function AddAll(t: Table, reqs: seq<Request>): (r: Batch)
    ensures |r.statuses| == |reqs|
    ensures |r.table| == |t|
    decreases |reqs|
  {
    if reqs == [] then Batch(t, [])
    else
      var a := AddTask(t, reqs[0].task, reqs[0].delay, reqs[0].period);
      var b := AddAll(a.table, reqs[1..]);
      Batch(b.table, [a.status] + b.statuses)
  }

  predicate Acceptable(reqs: seq<Request>) {
    forall k :: 0 <= k < |reqs| ==> reqs[k].task != Null && reqs[k].period > 0
  }

  /** A table whose first `k` slots are occupied and the rest empty. */
  predicate FilledUpTo(t: Table, k: nat) {
    k <= |t|
    && (forall j :: 0 <= j < k ==> t[j].Occupied())
    && (forall j :: k <= j < |t| ==> !t[j].Occupied())
  }

  lemma {:induction false} AddAllFromPrefix(t: Table, k: nat, reqs: seq<Request>)
    requires FilledUpTo(t, k)
    requires k + |reqs| <= |t|
    requires Acceptable(reqs)
    ensures var r := AddAll(t, reqs);
      && (forall n :: 0 <= n < |reqs| ==> r.statuses[n] == ExitSuccess)
      && (forall j :: 0 <= j < k ==> r.table[j] == t[j])
      && (forall n :: 0 <= n < |reqs| ==>
            r.table[k + n] == Slot(reqs[n].task, Inc(reqs[n].delay), reqs[n].period))
      && (forall j :: k + |reqs| <= j < |t| ==> r.table[j] == t[j])
    decreases |reqs|
  {
    if reqs != [] {
      var q := reqs[0];
      var a := AddTask(t, q.task, q.delay, q.period);
      var f := FreeSlot(t);
      assert k < |t| && !t[k].Occupied();
      assert f < |t| ==> !t[f].Occupied();
      assert f == k;
      assert a.table == t[k := Slot(q.task, Inc(q.delay), q.period)];
      assert FilledUpTo(a.table, k + 1);
      AddAllFromPrefix(a.table, k + 1, reqs[1..]);
      var r := AddAll(t, reqs);
      assert r == Batch(AddAll(a.table, reqs[1..]).table, [ExitSuccess] + AddAll(a.table, reqs[1..]).statuses);
      forall n | 0 <= n < |reqs|
        ensures r.table[k + n] == Slot(reqs[n].task, Inc(reqs[n].delay), reqs[n].period)
      {
        if n > 0 {
          assert reqs[1..][n - 1] == reqs[n];
          assert r.table[(k + 1) + (n - 1)] == Slot(reqs[n].task, Inc(reqs[n].delay), reqs[n].period);
        }
      }
    }
  }

  /** Starting from an empty table (as `sch_init_hz` leaves it), the n-th of
      up to SCH_MAX_TASKS acceptable registrations succeeds and occupies slot
      n - 1; the slots after them stay empty. */
  lemma {:induction false} AddAllFillsInOrder(t: Table, reqs: seq<Request>)
    requires AllEmpty(t)
    requires |reqs| <= |t|
    requires Acceptable(reqs)
    ensures var r := AddAll(t, reqs);
      && (forall n :: 0 <= n < |reqs| ==> r.statuses[n] == ExitSuccess)
      && (forall n :: 0 <= n < |reqs| ==>
            r.table[n] == Slot(reqs[n].task, Inc(reqs[n].delay), reqs[n].period))
      && (forall j :: |reqs| <= j < |t| ==> !r.table[j].Occupied())
  {
    AddAllFromPrefix(t, 0, reqs);
    var r := AddAll(t, reqs);
    forall n | 0 <= n < |reqs|
      ensures r.table[n] == Slot(reqs[n].task, Inc(reqs[n].delay), reqs[n].period)
    {
      assert r.table[0 + n] == Slot(reqs[n].task, Inc(reqs[n].delay), reqs[n].period);
    }
  }

  /** Once SCH_MAX_TASKS acceptable tasks are registered on an empty table,
      one more registration fails and leaves the table as it was. */
  lemma {:induction false} OneTooMany(t: Table, reqs: seq<Request>, extra: Request)
    requires AllEmpty(t)
    requires |reqs| == |t|
    requires Acceptable(reqs)
    ensures var r := AddAll(t, reqs);
      AddTask(r.table, extra.task, extra.delay, extra.period) == Added(r.table, ExitFailure)
  {
    AddAllFillsInOrder(t, reqs);
    var r := AddAll(t, reqs);
    assert Full(r.table) by {
      forall j | 0 <= j < |r.table| ensures r.table[j].Occupied() {
        assert r.table[j] == Slot(reqs[j].task, Inc(reqs[j].delay), reqs[j].period);
      }
    }
  }

  /** What the scan loop of `sch_add_task` reads and where it stops. */
  datatype Scan = Scan(id: nat, visited: seq<nat>)

  /** The search loop exactly as written in the source: the slot at Task_id
      is read BEFORE `Task_id < SCH_MAX_TASKS` is tested. At Task_id ==
      SCH_MAX_TASKS the read is past the end of the array; `beyond` stands for
      whatever handle-sized value happens to be stored there. That is an
      abstraction: in C the read is undefined behaviour, and nothing is then
      guaranteed about the loop at all. */
  function ScanAsWritten(t: Table, beyond: Handle, from: nat): (r: Scan)
    requires from <= |t|
    ensures |r.visited| > 0 && r.visited[0] == from
    ensures from <= r.id <= |t|
    ensures r.visited[|r.visited| - 1] == r.id
    decreases |t| - from
  {
    var h := if from < |t| then t[from].task else beyond;
    if h != Null && from < |t| then
      var rest := ScanAsWritten(t, beyond, from + 1);
      Scan(rest.id, [from] + rest.visited)
    else
      Scan(from, [from])
  }

  /** If the read past the end yields some handle, the as-written scan stops
      at the same slot as the corrected one; but on a full table it reads
      index SCH_MAX_TASKS, one past the end of `sch_tasks_g`, which in C is
      undefined behaviour. */
  lemma {:induction false} ScanAsWrittenReadsPastEnd(t: Table, beyond: Handle, from: nat)
    requires from <= |t|
    ensures ScanAsWritten(t, beyond, from).id == FirstFree(t, from)
    ensures (forall j :: from <= j < |t| ==> t[j].Occupied()) ==> |t| in ScanAsWritten(t, beyond, from).visited
    decreases |t| - from
  {
    if from < |t| && t[from].Occupied() {
      ScanAsWrittenReadsPastEnd(t, beyond, from + 1);
    }
  }

}

=== FILE: uint32.dfy ===
/** Unsigned 32-bit arithmetic as C performs it on `uint32_t`: every result is
    reduced modulo 2^32, so `+ 1` wraps UINT32_MAX to 0 and `- 1` wraps 0 to
    UINT32_MAX. The scheduler's Delay and Period fields, and the DELAY and
    PERIOD arguments of task registration, are of this type. */
module UInt32 {

  const UINT32_MAX: int := 0xFFFF_FFFF
  const MODULUS: int := 0x1_0000_0000

  type u32 = x: int | 0 <= x <= UINT32_MAX

  /** `x + 1` on uint32_t. */
  function Inc(x: u32): (r: u32)
    ensures r == (x + 1) % MODULUS
    ensures x < UINT32_MAX ==> r == x + 1
    ensures r == 0 <==> x == UINT32_MAX
  {
    if x == UINT32_MAX then 0 else x + 1
  }

  /** `x - 1` (the pre-decrement `--x`) on uint32_t. */
  function Dec(x: u32): (r: u32)
    ensures r == (x - 1) % MODULUS
    ensures x > 0 ==> r == x - 1
    ensures r == 0 <==> x == 1
  {
    if x == 0 then UINT32_MAX else x - 1
  }

}
